=== FILE: README.md ===
# Photo backup server: a Dafny model of its core

The system is a LAN photo backup service. A phone uploads photos over HTTP;
the server stores each one under `~/iPhone_Photo_Backup/<YYYY-MM-DD>/` and
advertises itself over Bonjour as `_photobackup._tcp`. Its logic is in the
`BackupServer` class of `src/server.js`. This project models the five rules
in that class that decide anything:

- **Storage layout** (`storage_layout.dfy`, `posix_path.dfy`, `text.dfy`).
  The date folder name is `getFullYear()`, `getMonth()+1` and `getDate()`,
  with month and day padded to two characters. The stored file name is
  `<Date.now()>-<path.basename(name, ext)><ext>`. Here `name` is the
  `X-File-Name` header when it is present and non-empty, otherwise the
  multipart name. `ext` is `path.extname(name)`, or `.jpg` when that is
  empty. Node's POSIX `extname` and `basename` are written in closed form.
- **Upload admission and response** (`upload.dfy`). Multer's single-file
  handling of the `photo` field comes first; a file part without a filename
  is skipped before any check. Then the case-sensitive
  `image/` filter, then the 52,428,800-byte cap. The route turns multer's
  outcome into 400 `Upload failed`, 400 `No file received`, or 200 with the
  file name and its path relative to the home directory.
- **Port probe** (`port_binder.dfy`). `tryPort` runs over an oracle that
  gives the result of one bind attempt on each port.
- **Lifecycle** (`lifecycle.dfy`). The class `BackupServer` holds `server`,
  the Bonjour instance (whether it has been destroyed, and every record
  published on it), `bonjourService` (which of those records it refers to),
  and the listeners a restart let go of. Its methods `Start`, `SetupBonjour`
  and `Stop` are each proved equal to a state function (`StartState`,
  `PublishState`, `StopState`).
  Lemmas about those functions state what the lifecycle guarantees, and what
  it does not.

Inputs that come from the outside world are parameters:
- the clock (`LocalDate` and the millisecond timestamp);
- the operating system's answer to a bind (`os: int -> BindOutcome`);
- whether Bonjour's `publish` throws (`PublishOutcome`);
- the host name;
- whether writing the file to disk fails (`writeError`).

## Behaviour the code has

- A restart (`start` while running) closes the old listener before it
  lets go of it (`RunsLeaveNoStrayListener`). It never calls `stop()` on
  the old advertisement, whatever the new publish does. If publish throws,
  the old record keeps announcing the old port while the server listens on
  another (`RestartWithFailingPublish`).
- The model takes a `publish` that returns to add a record that stays
  announced until `stop` (see "Left out" for what the Bonjour library may
  do instead). Under that assumption, a restart on another port leaves
  the old record announcing a port nothing listens on
  (`RestartOnNewPortLeavesStaleRecord`, `RestartOnNewPort`), and a restart
  that publishes again leaves two records announced, even on the same
  port (`RestartDuplicatesRecord`). Only runs whose starts all bind the
  same port keep every announced record on the listening port, from the
  freshly constructed object or any state where that already holds
  (`FreshServerKeepsDiscoveryMatch`, `SinglePortRunsKeepDiscoveryMatch`).
- `stop` destroys the Bonjour instance, and nothing recreates it. No
  later sequence of `start` and `stop` calls is announced
  (`DestroyedStaysSilent`, `StartAfterStopNeverAdvertises`).
- multer skips a file part with an empty filename, so it is answered 400
  `No file received` even when an `X-File-Name` header names it
  (`UnnamedPartIgnored`).
- `stop` never sets `server` back to null. A second `stop` closes the closed
  listener again, which changes nothing (`StopIsIdempotent`).
- The extension comes from the chosen name: the header, or else the
  multipart name. If that name has no extension, `.jpg` is used for every
  image type.
- Stored names differ whenever the timestamps differ
  (`DistinctTimestampsDistinctNames`). Two uploads of the same name in the
  same millisecond get the same name.
- Node's `basename(p, ext)` slices to the end of `p` when the last segment
  is a proper tail of `ext`. So an `X-File-Name` header such as `jpg/`
  keeps its trailing separator: the stored name becomes `7-jpg/.jpg`
  (`TrailingSlashReachesStoredName`). Only the header can bring a `/`:
  busboy, as multer configures it, cuts the multipart filename down to its
  last segment. For every name that does not end in
  `/`, the stored name has no `/` (`StoredNameHasNoSlash`).

## Model

| member | source | states |
|---|---|---|
| Text.NatToDecimal | src/server.js:80-82 | the rendered timestamp is a non-empty string of decimal digits with no leading zero |
| Text.IntToDecimalMeaning | src/server.js:69 | `${year}` is a minus sign exactly for negative years, followed by digits that read back as the year's magnitude |
| Text.PadStart | src/server.js:69 | `padStart` gives max(width, length) characters: fill characters, then the original string unchanged |
| PosixPath.Extname | src/server.js:81 | a non-empty extension starts with its segment's last `.` (no other `.` follows it), has no `/`, and is a proper suffix of the last path segment |
| PosixPath.Basename | src/server.js:82 | Node's POSIX `basename(p, ext)`; stated by `BasenameStripsOwnExtension`, `BasenameWithoutExtension` and `TrailingSeparatorKept` |
| PosixPath.TrailingSeparatorKept | src/server.js:81-82 | `extname("jpg/")` is empty and `basename("jpg/", ".jpg")` is `jpg/`, separator included |
| PosixPath.BasenameStripsOwnExtension | src/server.js:82 | basename with the name's own non-empty extension, followed by that extension, is exactly the last segment |
| PosixPath.BasenameWithoutExtension | src/server.js:81-82 | for a name with no extension and no trailing `/`, other than `.jpg` itself, basename with `.jpg` is the whole last segment |
| StorageLayout.YearNumeral | src/server.js:69 | a year from 1000 to 9999 renders as four digits that read back as the year |
| StorageLayout.Pad2Value | src/server.js:69 | for 0..99, `String(n).padStart(2, '0')` is two digits that read back as `n` |
| StorageLayout.DateFolder | src/server.js:66-70 | `${year}-${MM}-${DD}`; its meaning is stated by `DateFolderLayout` and `DateFolderRoundTrip` |
| StorageLayout.DateDirectory | src/server.js:66-70 | the destination `iPhone_Photo_Backup/<date folder>`; see `StoredPathStaysInDateFolder` |
| StorageLayout.DateFolderLayout | src/server.js:66-70 | for a calendar date in a 4-digit year the folder name has the `YYYY-MM-DD` shape: 10 characters, `-` at positions 4 and 7, decimal digits everywhere else |
| StorageLayout.DateFolderRoundTrip | src/server.js:66-70 | for a calendar date in a 4-digit year, parsing the folder name gives back year, month counted from 0, and day |
| StorageLayout.DateFolderInjective | src/server.js:66-70 | different calendar dates in 4-digit years never share a folder |
| StorageLayout.ChosenName | src/server.js:79 | the `X-File-Name` header when present and non-empty, else the multipart name; used by the stored-name lemmas |
| StorageLayout.StoredExtension | src/server.js:81 | the extension used is the name's own extension, or `.jpg` when that is empty; it starts with `.` and has no `/` |
| StorageLayout.StoredFileName | src/server.js:77-85 | the stored name starts with the decimal timestamp and `-`, and ends with the chosen extension |
| StorageLayout.StoredNameKeepsExtendedName | src/server.js:79-82 | when the chosen name has an extension, the stored name is the timestamp, `-`, and the chosen name's last segment |
| StorageLayout.StoredNameAppendsDefault | src/server.js:79-82 | when the chosen name has no extension and no trailing `/`, the stored name is the timestamp, `-`, the last segment (empty for `.jpg`), then `.jpg` |
| StorageLayout.StoredNameHasNoSlash | src/server.js:82 | when the chosen name does not end in `/`, the stored name has no `/` |
| StorageLayout.TrailingSlashReachesStoredName | src/server.js:82 | an `X-File-Name` header `jpg/` (multipart name `a.png`) at timestamp 7 is stored as `7-jpg/.jpg` |
| StorageLayout.TimestampOfStoredName | src/server.js:80-82 | the leading digits of the stored name read back as the timestamp |
| StorageLayout.DistinctTimestampsDistinctNames | src/server.js:80-82 | uploads at different milliseconds get different names, whatever their file names |
| Upload.FileFilter | src/server.js:93-99 | a file is accepted exactly when its MIME type starts with `image/`, case-sensitively; otherwise the error is "Only image files are allowed" |
| Upload.Rejection | src/server.js:88-100 | a part is refused exactly when it is not admissible; another field gives "Unexpected field", a non-image type "Only image files are allowed", an image over 50 MiB "File too large" |
| Upload.RunMulter | src/server.js:88-100 | multer reports a stored file exactly when the body parses, the part has a filename, is in the `photo` field, is an image, and is at most 50 MiB, and the write succeeds; a parse error is reported as it is, a missing part or one without a filename gives neither error nor file, a refused part gives its `Rejection`, a failed write its error; never an error and a file together |
| Upload.Respond | src/server.js:135-161 | the status is 200 or 400; an error gives 400 "Upload failed" with the error as details; no error and no file gives 400 "No file received" without details; otherwise 200 with `success: true`, the file name and its path |
| Upload.UploadErrorsReported | src/server.js:135-142 | each failure (unparsable body, wrong field, non-image, too large, failed write) gives 400 "Upload failed" with that failure's message |
| Upload.UploadSucceedsExactlyWhenAdmitted | src/server.js:135-161 | an upload succeeds exactly when the body parses, it has a named, admissible part, and the write succeeds; the success body is `success: true`, the stored name, and `iPhone_Photo_Backup/<date>/<name>` |
| Upload.HandleUpload | src/server.js:131-163 | one POST `/upload`: multer, then the callback; its contract is stated by the lemmas below |
| Upload.NonImageRejected | src/server.js:93-97 | in a body that parses, a named non-image part in the `photo` field gives 400 "Upload failed" with details "Only image files are allowed" |
| Upload.UpperCaseMimeRejected | src/server.js:95 | `IMAGE/PNG` is refused and `image/png` is accepted, as the filter compares the mimetype it receives (which busboy may already have lower-cased) |
| Upload.SizeCapBoundary | src/server.js:90-92 | a named image of exactly 52,428,800 bytes is stored; one byte more gives 400 with "File too large" |
| Upload.MissingFileReported | src/server.js:144-149 | a request without a file part, or whose part has no filename, gives 400 "No file received" with no details |
| Upload.UnnamedPartIgnored | src/server.js:135-149 | a part named `a.png` only by its header, with an empty filename, gets 400 "No file received" |
| Upload.StoredPathStaysInDateFolder | src/server.js:157-161 | when the body parses, the part is named and admissible, the write succeeds, and the chosen name has no trailing `/`, the reported path is the date directory, `/`, and one component with no `/` |
| PortBinder.TryPort | src/server.js:183-205 | the probe stops at or above the start port; every port it passed gave EADDRINUSE; it listens on the port where it stops, or fails there with that port's error |
| PortBinder.Attempt | src/server.js:186-200 | one `listen` on a port: a port outside 0..65535 fails with ERR_SOCKET_BAD_PORT without asking the operating system, any other gets the operating system's answer; used by `TryPort` and `ExhaustedRangeFails` |
| PortBinder.ProbeFindsFirstFree | src/server.js:183-205 | the probe listens on `p` exactly when `p` is the least port at or above the preferred one that is not in use, and it binds |
| PortBinder.ProbeStopsAtFirstError | src/server.js:187-193 | the probe fails at `q` with a code exactly when every earlier port was in use and `q` failed with that code |
| PortBinder.OccupiedRunIsSkipped | src/server.js:188-190 | with P..P+k in use and P+k+1 free, the server binds P+k+1 |
| PortBinder.ExhaustedRangeFails | src/server.js:183-205 | if every port up to 65535 is in use, the probe fails at 65536 with ERR_SOCKET_BAD_PORT |
| PortBinder.ProbeMovesOnOnlyWhenInUse | src/server.js:188-193 | after EADDRINUSE the probe is the probe from the next port; any other answer stops it where it is |
| Lifecycle.StopState | src/server.js:252-266 | `stop()` on the fields; stated by `StopIsIdempotent`, `StopEndsServiceKeepsReference` and `StopWithoutServerChangesNothing` |
| Lifecycle.PublishState | src/server.js:236-250 | `setupBonjour(port)` on the fields; stated by `StartAddsRecord` and `PublishErrorIsSwallowed` |
| Lifecycle.StartState | src/server.js:175-234 | `start(preferredPort)` on the fields; stated by the `Start…` and `Restart…` lemmas below |
| Lifecycle.StartReply | src/server.js:207-233 | the port `start` resolves with, or exit status 1 with the bind error; stated by `StartReportsFirstFreePort` and `StartFailureExits` |
| Lifecycle.StopWithoutServerChangesNothing | src/server.js:252-253 | `stop` with no server leaves every field as it was |
| Lifecycle.StopIsIdempotent | src/server.js:252-266 | stopping twice leaves the same state as stopping once |
| Lifecycle.StopEndsServiceKeepsReference | src/server.js:252-266 | after `stop` with a server, nothing listens and nothing is announced; Bonjour is destroyed; `server` still holds the closed listener |
| Lifecycle.StartReportsFirstFreePort | src/server.js:207-229 | `start` resolves with `p` exactly when `p` is the first free port, and the server then listens on `p` |
| Lifecycle.StartFailureExits | src/server.js:230-233 | a bind error other than EADDRINUSE exits with status 1 and that error; no listener is left open |
| Lifecycle.PublishErrorIsSwallowed | src/server.js:236-250 | a throwing publish still leaves the server listening on the probed port; the Bonjour fields are unchanged |
| Lifecycle.DestroyedStaysSilent | src/server.js:175-266 | once the Bonjour instance is destroyed, every sequence of calls leaves it destroyed and announcing nothing |
| Lifecycle.StartAfterStopNeverAdvertises | src/server.js:252-266 | after a `stop` with a server, no later sequence of `start` and `stop` calls announces the service |
| Lifecycle.StartKeepsEarlierRecords | src/server.js:175-250 | `start` never withdraws a record: every record announced before is still announced, unchanged, afterwards |
| Lifecycle.StartAddsRecord | src/server.js:236-250 | a `start` that binds and whose publish returns appends one `iPhone Photo Backup` / `_photobackup._tcp` record on the bound port and the host, points `bonjourService` at it, and announces it while Bonjour is alive |
| Lifecycle.RestartOnNewPortLeavesStaleRecord | src/server.js:175-250 | a restart that binds a port other than an announced record's leaves a record announcing a port nothing listens on, whether or not publish throws |
| Lifecycle.RestartDuplicatesRecord | src/server.js:175-250 | a restart that binds and publishes while a record is announced leaves two records announced |
| Lifecycle.CallKeepsSinglePortMatch | src/server.js:175-266 | if every announced record names port `p` and the server listens on `p`, a `stop`, or a `start` that binds `p`, keeps it so |
| Lifecycle.SinglePortRunsKeepDiscoveryMatch | src/server.js:175-266 | starting from a state where every announced record names `p` and the server listens on `p`, any sequence of calls whose starts all bind `p` keeps it so |
| Lifecycle.FreshServerKeepsDiscoveryMatch | src/server.js:9-17 | from the freshly constructed object, such sequences never announce a port nothing listens on |
| Lifecycle.CallLeavesNoStrayListener | src/server.js:176-208 | a `start` or `stop` never lets go of an open listener |
| Lifecycle.RunsLeaveNoStrayListener | src/server.js:176-208 | over any sequence of calls, every listener a restart replaced has been closed |
| Lifecycle.BackupServer.constructor | src/server.js:9-17 | a new object has no server, no advertisement, and a live Bonjour instance with no records |
| Lifecycle.BackupServer.Start | src/server.js:175-234 | with `preferredPort` defaulting to 3000, the fields become `StartState` of the old fields: any old listener closed, then the probe, the new listener, and the publish; the result is `StartReply` |
| Lifecycle.BackupServer.SetupBonjour | src/server.js:236-250 | the fields become `PublishState` of the old fields: a new record on the port unless publish throws |
| Lifecycle.BackupServer.Stop | src/server.js:252-266 | the fields become `StopState` of the old fields |
| Lifecycle.RestartWithFailingPublish | src/server.js:175-250 | start on 3000, then restart with 3000 taken and publish throwing: the record still announces 3000 while the server listens on 3001 |
| Lifecycle.RestartOnNewPort | src/server.js:175-250 | `start()` on 3000, then `start(4000)`: the first record still announces 3000 while the server listens on 4000 |
| Lifecycle.StopTwiceThenStart | src/server.js:252-266 | a second `stop` changes nothing, and a `start` after `stop` listens on 3000 but is not announced |

## Left out

- Express middleware, request logging, CORS headers and the `OPTIONS` handler (src/server.js:19-47, 105): these are fixed settings of foreign libraries.
- `GET /status` and `GET /` (src/server.js:107-128): they only report the clock and the process uptime.
- The generic 500 error handler (src/server.js:165-172): the upload route handles its own errors, so this handler is never reached from the modelled paths.
- Creating the backup root at start-up, and `process.exit(1)` when that fails (src/server.js:50-60): filesystem I/O. Paths in the model are relative to the home directory.
- `fs.mkdirSync` of the date folder (src/server.js:73): filesystem I/O. A failed write of the file is the abstract `writeError`. A `mkdirSync` that throws is not modelled.
- Streaming and byte counting: the part's size is given. The size cap is checked before `writeError` is considered.
- Bodies with more than one file part, and multer's other limits: only one file part is modelled.
- Path normalisation by `path.join`/`path.relative` for stored names that contain `/`: the reported path is the plain concatenation.
- Printing network interfaces, and Bonjour's real mDNS traffic (src/server.js:211-224, 245, 257, 261): network I/O. Only their effect on the fields is kept. A publish on a destroyed Bonjour instance is taken to announce nothing.
- The Bonjour library's registry (not part of this model): a `publish` that returns is modelled as adding a record that is announced until `stop`. The library's name-conflict probe before announcing, which can make a second `iPhone Photo Backup` on the same instance stop itself and emit an asynchronous `error` that server.js does not listen for, is not modelled; `RestartOnNewPortLeavesStaleRecord`, `RestartDuplicatesRecord` and `RestartOnNewPort` hold under the modelled publish only.
- multer's own code is not part of this model: its skipping of a file part without a filename is modelled as `Named`, taken to come before the field, filter and size checks.
- Port 0, which asks the operating system for any free port: it is treated like every other port, so the model reports 0.
- Node's `basename` for a suffix that contains `/`: it never happens here, because the extension never contains `/`.
- Concurrency between in-flight uploads and `stop`, and between overlapping `start` calls: the source makes no promise about their order.
- src/main.js and src/index.js: these host shells only call `start` and `stop`. They are not part of this model.
- StorageLayout.StoredNameHasNoSlash: it is proved only for chosen names that do not end in `/`. Most names that end in `/` lose it (`basename("dir/", ".jpg")` is `dir`), but a name with no extension whose last segment is a proper tail of `.jpg` (`jpg/`, `pg/`, `g/`, or only slashes) keeps the separator (`TrailingSlashReachesStoredName`); such a name can only come from the `X-File-Name` header. The model does not characterise that set further, and it takes the multipart name as busboy gives it without stating that busboy has already removed any `/`.

=== FILE: lifecycle.dfy ===
/** The lifecycle of `BackupServer` (src/server.js:9-17, 175-266): the
    listener it keeps in `this.server`, the Bonjour instance in
    `this.bonjour` with every record published on it, and the reference
    `this.bonjourService` to the last one. The state functions say what
    `start` and `stop` do; the class performs them on its fields. Listener
    and Bonjour handles are values standing for the foreign objects. */
module Lifecycle {
  import opened Wrappers
  import opened PortBinder

  const ServiceName: string := "iPhone Photo Backup"
  const ServiceType: string := "_photobackup._tcp"
  const DefaultPort: int := 3000

  /** An HTTP listener bound to `port`; `open` turns false once `close()`
      has been called on it. */
  datatype Listener = Listener(port: int, open: bool)

  /** A published Bonjour service; `stopped` once its `stop()` was called. */
  datatype Advertisement = Advertisement(name: string, serviceType: string, port: int, host: string, stopped: bool)

  /** The Bonjour instance: every record ever published on it, in order,
      and whether `destroy()` has been called, which silences them all. */
  datatype Bonjour = Bonjour(alive: bool, records: seq<Advertisement>)

  /** Whether `this.bonjour.publish(...)` returns or throws. */
  datatype PublishOutcome = Publishes | PublishThrows(message: string)

  /** `start` resolves with the port, or the process exits with status 1. */
  datatype StartResult = Started(port: int) | Exited(status: int, error: string)

  /** The object's fields. `bonjourService` is the position of the record
      it refers to among `bonjour.records`. `retired` holds the listeners
      `this.server` referred to before a restart replaced them: the object
      forgets them, but they stay bound until closed. */
  datatype ServerState = ServerState(
    server: Option<Listener>,
    retired: seq<Listener>,
    bonjour: Bonjour,
    bonjourService: Option<nat>)

  /** The fields right after the constructor. */
  function InitialState(): ServerState {
    ServerState(None, [], Bonjour(true, []), None)
  }

  predicate Running(s: ServerState) {
    s.server.Some? && s.server.value.open
  }

  /** Record `i` is being announced: published, not stopped, and the Bonjour
      instance not destroyed. */
  predicate Announces(s: ServerState, i: int) {
    s.bonjour.alive && 0 <= i < |s.bonjour.records| && !s.bonjour.records[i].stopped
  }

  /** The record `bonjourService` refers to is being announced. */
  predicate Advertising(s: ServerState) {
    s.bonjourService.Some? && Announces(s, s.bonjourService.value)
  }

  predicate NothingAnnounced(s: ServerState) {
    forall i :: 0 <= i < |s.bonjour.records| ==> !Announces(s, i)
  }

  /** Every announced record names the port a live listener is bound to. */
  predicate DiscoveryMatchesListener(s: ServerState) {
    forall i :: 0 <= i < |s.bonjour.records| && Announces(s, i) ==> Running(s) && s.bonjour.records[i].port == s.server.value.port
  }

  /** At most one record is announced. */
  predicate SingleRecord(s: ServerState) {
    forall i, j :: 0 <= i < |s.bonjour.records| && 0 <= j < |s.bonjour.records| && Announces(s, i) && Announces(s, j) ==> i == j
  }

  /** No listener the object has let go of is still open. */
  predicate NoStrayListener(s: ServerState) {
    forall i :: 0 <= i < |s.retired| ==> !s.retired[i].open
  }

  /** `this.bonjourService.stop()`, on the record the reference names. */
  function StopReferenced(b: Bonjour, ref: Option<nat>): Bonjour {
    if ref.Some? && ref.value < |b.records| then
      b.(records := b.records[ref.value := b.records[ref.value].(stopped := true)])
    else b
  }

  /** `stop()`: with a server, close it, stop the referenced advertisement
      if there is one and destroy the Bonjour instance; the references are
      kept. */
  function StopState(s: ServerState): ServerState {
    if s.server.None? then s
    else
      s.(server := Some(s.server.value.(open := false)),
         bonjour := StopReferenced(s.bonjour, s.bonjourService).(alive := false))
  }

  /** `setupBonjour(port)`: a returning publish adds a record to the Bonjour
      instance and points `bonjourService` at it; a throwing publish is
      swallowed and changes nothing. */
  function PublishState(s: ServerState, port: int, publish: PublishOutcome, host: string): ServerState {
    match publish
    case PublishThrows(_) => s
    case Publishes =>
      var record := Advertisement(ServiceName, ServiceType, port, host, false);
      s.(bonjour := s.bonjour.(records := s.bonjour.records + [record]),
         bonjourService := Some(|s.bonjour.records|))
  }

  /** `start(preferredPort)`: close an existing server, probe, and on success
      keep the new listener (the old one is let go) and publish. Nothing
      stops the earlier records. */
  function StartState(s: ServerState, preferred: int, os: int -> BindOutcome, publish: PublishOutcome, host: string): ServerState {
    var closed := if s.server.Some? then s.(server := Some(s.server.value.(open := false))) else s;
    match TryPort(os, preferred)
    case Failed(_, _) => closed
    case Bound(p) =>
      var replaced := closed.(
        server := Some(Listener(p, true)),
        retired := closed.retired + if closed.server.Some? then [closed.server.value] else []);
      PublishState(replaced, p, publish, host)
  }

  function StartReply(preferred: int, os: int -> BindOutcome): StartResult {
    match TryPort(os, preferred)
    case Failed(_, code) => Exited(1, code)
    case Bound(p) => Started(p)
  }

  /** `stop()` without a server changes nothing. */
  lemma StopWithoutServerChangesNothing(s: ServerState)
    requires s.server.None?
    ensures StopState(s) == s
  {
  }

  /** Stopping twice is the same as stopping once. */
  lemma StopIsIdempotent(s: ServerState)
    ensures StopState(StopState(s)) == StopState(s)
  {
  }

  /** After `stop()` with a server nothing listens and nothing is announced,
      but `this.server` still refers to the closed listener and
      `this.bonjourService` to its record. */
  lemma StopEndsServiceKeepsReference(s: ServerState)
    requires s.server.Some?
    ensures var t := StopState(s);
      !Running(t) && NothingAnnounced(t) && !t.bonjour.alive
      && t.server == Some(s.server.value.(open := false))
      && t.bonjourService == s.bonjourService
      && |t.bonjour.records| == |s.bonjour.records|
  {
  }

  /** `start` reports port `p` exactly when `p` is the first free port from
      the preferred one, and the server then listens on `p`. */
  lemma StartReportsFirstFreePort(s: ServerState, preferred: int, os: int -> BindOutcome, publish: PublishOutcome, host: string, p: int)
    ensures StartReply(preferred, os) == Started(p) <==> IsFirstFree(os, preferred, p)
    ensures StartReply(preferred, os) == Started(p) ==>
      var t := StartState(s, preferred, os, publish, host);
      Running(t) && t.server.value.port == p
  {
    ProbeFindsFirstFree(os, preferred, p);
  }

  /** A bind error other than EADDRINUSE ends the process with status 1 and
      leaves no listener open. */
  lemma StartFailureExits(s: ServerState, preferred: int, os: int -> BindOutcome, publish: PublishOutcome, host: string)
    requires TryPort(os, preferred).Failed?
    ensures StartReply(preferred, os) == Exited(1, TryPort(os, preferred).code)
    ensures !Running(StartState(s, preferred, os, publish, host))
  {
  }

  /** A throwing publish does not stop the server from coming up, and leaves
      the Bonjour instance and `bonjourService` as they were. */
  lemma PublishErrorIsSwallowed(s: ServerState, preferred: int, os: int -> BindOutcome, message: string, host: string)
    requires TryPort(os, preferred).Bound?
    ensures var t := StartState(s, preferred, os, PublishThrows(message), host);
      Running(t) && t.server.value.port == TryPort(os, preferred).port
      && t.bonjour == s.bonjour && t.bonjourService == s.bonjourService
  {
  }


  /** `start` never withdraws a record: whatever was announced before is
      still announced, unchanged, afterwards. */
  lemma StartKeepsEarlierRecords(s: ServerState, preferred: int, os: int -> BindOutcome, publish: PublishOutcome, host: string)
    ensures var t := StartState(s, preferred, os, publish, host);
      forall i :: Announces(s, i) ==> Announces(t, i) && t.bonjour.records[i] == s.bonjour.records[i]
  {
  }

  /** A successful `start` whose publish returns announces the new port on
      top of whatever was announced already. */
  lemma StartAddsRecord(s: ServerState, preferred: int, os: int -> BindOutcome, host: string)
    requires TryPort(os, preferred).Bound?
    ensures var t := StartState(s, preferred, os, Publishes, host);
      |t.bonjour.records| == |s.bonjour.records| + 1
      && t.bonjourService == Some(|s.bonjour.records|)
      && t.bonjour.records[|s.bonjour.records|] == Advertisement(ServiceName, ServiceType, TryPort(os, preferred).port, host, false)
      && (s.bonjour.alive ==> Advertising(t))
  {
  }

  /** A restart that binds a port other than an announced record's leaves
      that record announcing a port nothing listens on, whether or not the
      new publish throws. */
  lemma RestartOnNewPortLeavesStaleRecord(s: ServerState, preferred: int, os: int -> BindOutcome, publish: PublishOutcome, host: string, i: nat)
    requires Announces(s, i) && TryPort(os, preferred).Bound?
    requires s.bonjour.records[i].port != TryPort(os, preferred).port
    ensures !DiscoveryMatchesListener(StartState(s, preferred, os, publish, host))
  {
    StartKeepsEarlierRecords(s, preferred, os, publish, host);
  }

  /** A restart that binds and publishes while a record is announced leaves
      two records announced, even on the same port. */
  lemma RestartDuplicatesRecord(s: ServerState, preferred: int, os: int -> BindOutcome, host: string, i: nat)
    requires Announces(s, i) && TryPort(os, preferred).Bound?
    ensures !SingleRecord(StartState(s, preferred, os, Publishes, host))
  {
    var t := StartState(s, preferred, os, Publishes, host);
    StartKeepsEarlierRecords(s, preferred, os, Publishes, host);
    StartAddsRecord(s, preferred, os, host);
    assert Announces(t, i) && Announces(t, |s.bonjour.records|);
  }

  /** One call on the server object. */
  datatype Call =
    | StartCall(preferred: int, os: int -> BindOutcome, publish: PublishOutcome, host: string)
    | StopCall

  function Apply(s: ServerState, c: Call): ServerState {
    match c
    case StartCall(preferred, os, publish, host) => StartState(s, preferred, os, publish, host)
    case StopCall => StopState(s)
  }

  function Run(s: ServerState, calls: seq<Call>): ServerState
    decreases |calls|
  {
    if calls == [] then s else Run(Apply(s, calls[0]), calls[1..])
  }

  /** A start whose probe binds port `p`. */
  predicate BindsAt(c: Call, p: int) {
    c.StartCall? ==> TryPort(c.os, c.preferred) == Bound(p)
  }

  /** Every announced record names port `p`, and a live listener is on it. */
  predicate AnnouncesOnly(s: ServerState, p: int) {
    DiscoveryMatchesListener(s) && forall i :: 0 <= i < |s.bonjour.records| && Announces(s, i) ==> s.bonjour.records[i].port == p
  }

  lemma CallKeepsSinglePortMatch(s: ServerState, c: Call, p: int)
    requires AnnouncesOnly(s, p) && BindsAt(c, p)
    ensures AnnouncesOnly(Apply(s, c), p)
  {
    if c.StartCall? {
      StartKeepsEarlierRecords(s, c.preferred, c.os, c.publish, c.host);
    }
  }

  /** As long as every start binds the same port, every announced record
      names the port that is listening. */
  lemma {:induction false} SinglePortRunsKeepDiscoveryMatch(s: ServerState, calls: seq<Call>, p: int)
    requires AnnouncesOnly(s, p)
    requires forall i :: 0 <= i < |calls| ==> BindsAt(calls[i], p)
    ensures AnnouncesOnly(Run(s, calls), p)
    decreases |calls|
  {
    if calls != [] {
      CallKeepsSinglePortMatch(s, calls[0], p);
      assert forall i :: 0 <= i < |calls[1..]| ==> BindsAt(calls[1..][i], p) by {
        forall i | 0 <= i < |calls[1..]| ensures BindsAt(calls[1..][i], p) {
          assert calls[1..][i] == calls[i + 1];
        }
      }
      SinglePortRunsKeepDiscoveryMatch(Apply(s, calls[0]), calls[1..], p);
    }
  }

  /** From the freshly constructed object, runs whose starts all bind the
      same port never announce a port that is not listening. */
  lemma FreshServerKeepsDiscoveryMatch(calls: seq<Call>, p: int)
    requires forall i :: 0 <= i < |calls| ==> BindsAt(calls[i], p)
    ensures DiscoveryMatchesListener(Run(InitialState(), calls))
  {
    assert AnnouncesOnly(InitialState(), p) by {
      assert InitialState().bonjour.records == [];
    }
    SinglePortRunsKeepDiscoveryMatch(InitialState(), calls, p);
  }

  /** A destroyed Bonjour instance is never recreated: whatever calls
      follow, it stays destroyed and announces nothing. */
  lemma {:induction false} DestroyedStaysSilent(s: ServerState, calls: seq<Call>)
    requires !s.bonjour.alive
    ensures NothingAnnounced(Run(s, calls)) && !Run(s, calls).bonjour.alive
    decreases |calls|
  {
    if calls != [] {
      DestroyedStaysSilent(Apply(s, calls[0]), calls[1..]);
    }
  }

  /** After a `stop` with a server, no later sequence of `start` and `stop`
      calls announces the service. */
  lemma StartAfterStopNeverAdvertises(s: ServerState, calls: seq<Call>)
    requires s.server.Some?
    ensures NothingAnnounced(Run(StopState(s), calls))
  {
    StopEndsServiceKeepsReference(s);
    DestroyedStaysSilent(StopState(s), calls);
  }

  lemma CallLeavesNoStrayListener(s: ServerState, c: Call)
    requires NoStrayListener(s)
    ensures NoStrayListener(Apply(s, c))
  {
  }

  /** Every listener a restart lets go of has been closed first, over any
      sequence of calls. */
  lemma {:induction false} RunsLeaveNoStrayListener(s: ServerState, calls: seq<Call>)
    requires NoStrayListener(s)
    ensures NoStrayListener(Run(s, calls))
    decreases |calls|
  {
    if calls != [] {
      CallLeavesNoStrayListener(s, calls[0]);
      RunsLeaveNoStrayListener(Apply(s, calls[0]), calls[1..]);
    }
  }

  /** The server object with the fields the source updates in place. */
  class BackupServer {
    var server: Option<Listener>
    var bonjour: Bonjour
    var bonjourService: Option<nat>
    /** Listeners `server` referred to before; the object keeps no handle. */
    var retired: seq<Listener>

    function State(): ServerState
      reads this
    {
      ServerState(server, retired, bonjour, bonjourService)
    }

    constructor ()
      ensures State() == InitialState()
    {
      server := None;
      retired := [];
      bonjour := Bonjour(true, []);
      bonjourService := None;
    }

    method Start(os: int -> BindOutcome, publish: PublishOutcome, host: string, preferredPort: int := DefaultPort) returns (r: StartResult)
      modifies this
      ensures State() == StartState(old(State()), preferredPort, os, publish, host)
      ensures r == StartReply(preferredPort, os)
    {
      if server.Some? {
        server := Some(server.value.(open := false));
      }
      var probe := TryPort(os, preferredPort);
      match probe
      case Failed(_, code) =>
        r := Exited(1, code);
      case Bound(port) =>
        if server.Some? {
          retired := retired + [server.value];
        }
        server := Some(Listener(port, true));
        SetupBonjour(port, publish, host);
        r := Started(port);
    }

    method SetupBonjour(port: int, publish: PublishOutcome, host: string)
      modifies this
      ensures State() == PublishState(old(State()), port, publish, host)
    {
      match publish
      case PublishThrows(_) =>
      case Publishes =>
        bonjourService := Some(|bonjour.records|);
        bonjour := bonjour.(records := bonjour.records + [Advertisement(ServiceName, ServiceType, port, host, false)]);
    }

    method Stop()
      modifies this
      ensures State() == StopState(old(State()))
    {
      if server.Some? {
        server := Some(server.value.(open := false));
        if bonjourService.Some? && bonjourService.value < |bonjour.records| {
          var i := bonjourService.value;
          bonjour := bonjour.(records := bonjour.records[i := bonjour.records[i].(stopped := true)]);
        }
        bonjour := bonjour.(alive := false);
      }
    }
  }

  /** Start on 3000, then restart with 3000 taken by another process and a
      throwing publish: the record still announces 3000 while the server
      listens on 3001. */
  method RestartWithFailingPublish() returns (announced: int, listening: int, advertising: bool)
    ensures advertising && announced == 3000 && listening == 3001
  {
    var b := new BackupServer();
    var first := b.Start((p: int) => Listening, Publishes, "studio");
    var second := b.Start((p: int) => if p == 3000 then AddressInUse else Listening, PublishThrows("socket closed"), "studio");
    assert second == Started(3001);
    announced := b.bonjour.records[b.bonjourService.value].port;
    listening := b.server.value.port;
    advertising := Advertising(b.State());
  }

  /** `start()` on 3000, then `start(4000)`, every port free and every
      publish returning: the first record still announces 3000, where
      nothing listens any more. */
  method RestartOnNewPort() returns (firstAnnounced: bool, firstPort: int, secondPort: int, listening: int)
    ensures firstAnnounced && firstPort == 3000 && secondPort == 4000 && listening == 4000
  {
    var b := new BackupServer();
    var first := b.Start((p: int) => Listening, Publishes, "studio");
    var second := b.Start((p: int) => Listening, Publishes, "studio", 4000);
    firstAnnounced := Announces(b.State(), 0);
    firstPort := b.bonjour.records[0].port;
    secondPort := b.bonjour.records[1].port;
    listening := b.server.value.port;
  }

  /** Stopping twice, then starting again: the second stop changes nothing
      and the new start is not announced. */
  method StopTwiceThenStart() returns (changedBySecondStop: bool, advertising: bool, port: int)
    ensures !changedBySecondStop && !advertising && port == 3000
  {
    var b := new BackupServer();
    var first := b.Start((p: int) => Listening, Publishes, "studio");
    b.Stop();
    var afterFirst := b.State();
    b.Stop();
    changedBySecondStop := b.State() != afterFirst;
    var again := b.Start((p: int) => Listening, Publishes, "studio");
    advertising := Advertising(b.State());
    port := b.server.value.port;
  }
}

=== FILE: port_binder.dfy ===
/** The linear port probe of `BackupServer.start` (src/server.js:183-205):
    listen on the preferred port on `0.0.0.0`; on EADDRINUSE try the next
    port, on any other error give up with that error. The operating system
    is an oracle saying what one bind attempt on a port gives. */
module PortBinder {
  const MaxPort: int := 65535

  /** The result of one `listen(port, '0.0.0.0')`. */
  datatype BindOutcome = Listening | AddressInUse | BindFailed(code: string)

  /** Where the probe stopped: the port it listens on, or the port whose
      error it propagates. */
  datatype ProbeResult = Bound(port: int) | Failed(port: int, code: string)

  /** One attempt: Node refuses a port outside 0..65535 itself (a RangeError
      with code ERR_SOCKET_BAD_PORT) before the operating system is asked. */
  function Attempt(os: int -> BindOutcome, port: int): BindOutcome {
    if port < 0 || port > MaxPort then BindFailed("ERR_SOCKET_BAD_PORT") else os(port)
  }

  /** `tryPort(port)`. The source sets no upper bound; the recursion ends
      because Node refuses ports above 65535. */
  function TryPort(os: int -> BindOutcome, port: int): (r: ProbeResult)
    ensures r.port >= port
    ensures forall q :: port <= q < r.port ==> Attempt(os, q) == AddressInUse
    ensures r.Bound? ==> Attempt(os, r.port) == Listening
    ensures r.Failed? ==> Attempt(os, r.port) == BindFailed(r.code)
    decreases MaxPort + 1 - port
  {
    match Attempt(os, port)
    case Listening => Bound(port)
    case BindFailed(code) => Failed(port, code)
    case AddressInUse => TryPort(os, port + 1)
  }

  /** `p` is the first port from `preferred` on that is not in use, and it
      binds. */
  predicate IsFirstFree(os: int -> BindOutcome, preferred: int, p: int) {
    preferred <= p && Attempt(os, p) == Listening
    && forall q :: preferred <= q < p ==> Attempt(os, q) == AddressInUse
  }

  /** The probe listens on `p` exactly when `p` is the first free port. */
  lemma ProbeFindsFirstFree(os: int -> BindOutcome, preferred: int, p: int)
    ensures TryPort(os, preferred) == Bound(p) <==> IsFirstFree(os, preferred, p)
  {
  }

  /** The probe gives up at port `q` with `code` exactly when every port
      before `q` is in use and `q` fails with that error. */
  lemma ProbeStopsAtFirstError(os: int -> BindOutcome, preferred: int, q: int, code: string)
    ensures TryPort(os, preferred) == Failed(q, code) <==>
      preferred <= q && Attempt(os, q) == BindFailed(code)
      && forall k :: preferred <= k < q ==> Attempt(os, k) == AddressInUse
  {
  }

  /** With ports `preferred` .. `preferred + k` taken and the next one free,
      the server comes up on `preferred + k + 1`. */
  lemma OccupiedRunIsSkipped(os: int -> BindOutcome, preferred: int, k: nat)
    requires forall q :: preferred <= q <= preferred + k ==> Attempt(os, q) == AddressInUse
    requires Attempt(os, preferred + k + 1) == Listening
    ensures TryPort(os, preferred) == Bound(preferred + k + 1)
  {
    ProbeFindsFirstFree(os, preferred, preferred + k + 1);
  }

  /** When every port from `preferred` to 65535 is in use the probe runs off
      the end of the port range and fails there. */
  lemma ExhaustedRangeFails(os: int -> BindOutcome, preferred: int)
    requires 0 <= preferred <= MaxPort + 1
    requires forall q :: preferred <= q <= MaxPort ==> os(q) == AddressInUse
    ensures TryPort(os, preferred) == Failed(MaxPort + 1, "ERR_SOCKET_BAD_PORT")
  {
    ProbeStopsAtFirstError(os, preferred, MaxPort + 1, "ERR_SOCKET_BAD_PORT");
  }

  /** The probe does not depend on ports below the one it starts from:
      after EADDRINUSE it goes on exactly as if it had started one higher. */
  lemma ProbeMovesOnOnlyWhenInUse(os: int -> BindOutcome, port: int)
    ensures Attempt(os, port) == AddressInUse ==> TryPort(os, port) == TryPort(os, port + 1)
    ensures Attempt(os, port) != AddressInUse ==> TryPort(os, port).port == port
  {
  }
}

=== FILE: posix_path.dfy ===
/** The two functions of Node's `path` module (POSIX flavour) that the stored
    file name is built from, written in closed form: `extname(p)` and
    `basename(p, suffix)`. */
module PosixPath {
  import opened Wrappers
  import opened Text

  /** The path with its trailing `/` characters removed. */
  function StripTrailingSlashes(p: string): (r: string)
    ensures r <= p
    ensures r == [] || r[|r| - 1] != '/'
    ensures forall i :: |r| <= i < |p| ==> p[i] == '/'
  {
    if p != [] && p[|p| - 1] == '/' then StripTrailingSlashes(p[..|p| - 1]) else p
  }

  /** What follows the last `/` of `p` (all of `p` when it has none). */
  function LastSegment(p: string): (seg: string)
    ensures '/' !in seg
    ensures |seg| <= |p| && p[|p| - |seg|..] == seg
    ensures |seg| < |p| ==> p[|p| - |seg| - 1] == '/'
  {
    match LastIndexOf(p, '/')
    case None => p
    case Some(i) => p[i + 1..]
  }

  /** The path component `basename` and `extname` look at: the last segment
      once trailing separators are ignored. */
  function BaseSegment(p: string): (seg: string)
    ensures '/' !in seg
  {
    LastSegment(StripTrailingSlashes(p))
  }

  /** The extension of one path segment: from its last `.` to its end; empty
      when it has no `.`, when its last `.` is its first character, or when
      the segment is `..`. */
  function SegmentExtension(seg: string): (e: string)
    ensures e != [] ==> e[0] == '.' && forall j :: 0 < j < |e| ==> e[j] != '.'
    ensures e != [] ==> EndsWith(seg, e) && |e| < |seg|
  {
    match LastIndexOf(seg, '.')
    case None => ""
    case Some(d) =>
      if d == 0 || seg == ".." then ""
      else seg[d..]
  }

  /** `path.extname(p)`. */
  function Extname(p: string): (e: string)
    ensures e != [] ==> e[0] == '.' && '/' !in e
    ensures e != [] ==> forall j :: 0 < j < |e| ==> e[j] != '.'
    ensures e != [] ==> EndsWith(BaseSegment(p), e) && |e| < |BaseSegment(p)|
  {
    var seg := BaseSegment(p);
    var e := SegmentExtension(seg);
    NotInSuffix(seg, |seg| - |e|, '/');
    e
  }

  lemma NotInSuffix(s: string, k: nat, c: char)
    requires k <= |s| && c !in s
    ensures c !in s[k..]
  {
  }

  /** A segment other than `..` with a `.` after its first character has a
      non-empty extension. */
  lemma DotAfterStartGivesExtension(seg: string, i: nat)
    requires 1 <= i < |seg| && seg[i] == '.'
    requires seg != ".."
    ensures SegmentExtension(seg) != ""
  {
  }

  /** `path.basename(p, suffix)` as Node's POSIX implementation computes it.
      With a non-empty suffix no longer than `p`: `p == suffix` gives the
      empty string; a base segment that ends with the suffix loses it unless
      it IS the suffix; a base segment that is a proper tail of the suffix
      makes Node slice to the end of `p`, so trailing separators are kept;
      otherwise the base segment is returned. */
  function Basename(p: string, suffix: string): (r: string)
  {
    if 0 < |suffix| <= |p| then
      if suffix == p then ""
      else
        var stripped := StripTrailingSlashes(p);
        var seg := LastSegment(stripped);
        if EndsWith(seg, suffix) then
          if |seg| == |suffix| then seg else seg[..|seg| - |suffix|]
        else if EndsWith(suffix, seg) then p[|stripped| - |seg|..]
        else seg
    else
      BaseSegment(p)
  }

  /** A non-empty extension is cut off its own base segment exactly. */
  lemma BasenameStripsOwnExtension(p: string)
    requires Extname(p) != ""
    ensures Basename(p, Extname(p)) + Extname(p) == BaseSegment(p)
  {
    var e := Extname(p);
    var stripped := StripTrailingSlashes(p);
    var seg := LastSegment(stripped);
    assert |seg| <= |stripped| <= |p|;
    assert 0 < |e| < |seg|;
    assert e != p;
    assert EndsWith(seg, e);
    assert Basename(p, e) == seg[..|seg| - |e|];
    assert seg[..|seg| - |e|] + seg[|seg| - |e|..] == seg;
  }

  /** Without trailing separators, and unless the path is the suffix itself,
      `basename(p, ".jpg")` is the base segment when `p` has no extension. */
  lemma BasenameWithoutExtension(p: string)
    requires Extname(p) == ""
    requires p == [] || p[|p| - 1] != '/'
    requires p != ".jpg"
    ensures Basename(p, ".jpg") == BaseSegment(p)
  {
    var suffix := ".jpg";
    var seg := BaseSegment(p);
    assert StripTrailingSlashes(p) == p;
    if 0 < |suffix| <= |p| && EndsWith(seg, suffix) && |seg| != |suffix| {
      // seg would end with ".jpg" and be longer, so it would have an extension
      assert seg[|seg| - 4] == '.';
      DotAfterStartGivesExtension(seg, |seg| - 4);
    }
  }

  /** `jpg/` has no extension, and since its segment `jpg` is a proper tail
      of `.jpg`, `basename("jpg/", ".jpg")` keeps the separator. */
  lemma TrailingSeparatorKept()
    ensures Extname("jpg/") == ""
    ensures Basename("jpg/", ".jpg") == "jpg/"
  {
    assert StripTrailingSlashes("jpg/") == "jpg";
    assert LastIndexOf("jpg", '/') == None;
    assert LastIndexOf("jpg", '.') == None;
  }
}

=== FILE: storage_layout.dfy ===
/** Where an uploaded photo is stored (src/server.js:50, 63-86): the fixed
    backup root under the home directory, a `YYYY-MM-DD` folder for the local
    date of receipt, and a file name made of the millisecond timestamp and
    the client's file name. Paths here are relative to the home directory. */
module StorageLayout {
  import opened Wrappers
  import opened Text
  import opened PosixPath

  const BackupRoot: string := "iPhone_Photo_Backup"
  const DefaultExtension: string := ".jpg"

  /** A local calendar date as `Date` reports it: `getFullYear()`,
      `getMonth()` (counted from 0) and `getDate()`. */
  datatype LocalDate = LocalDate(year: int, month0: int, day: int)

  predicate IsCalendarDate(d: LocalDate) {
    0 <= d.month0 < 12 && 1 <= d.day <= 31
  }

  predicate HasFourDigitYear(d: LocalDate) {
    1000 <= d.year <= 9999
  }

  /** `String(n).padStart(2, '0')`. */
  function Pad2(n: int): string {
    PadStart(IntToDecimal(n), 2, '0')
  }

  /** The date partition: year, month counted from 1, day, joined by `-`. */
  function DateFolder(d: LocalDate): string {
    IntToDecimal(d.year) + "-" + Pad2(d.month0 + 1) + "-" + Pad2(d.day)
  }

  /** The destination directory of an upload, relative to the home directory. */
  function DateDirectory(d: LocalDate): string {
    BackupRoot + "/" + DateFolder(d)
  }

  /** A four-digit year renders as four digits that read back as the year. */
  lemma YearNumeral(y: int)
    requires 1000 <= y <= 9999
    ensures |IntToDecimal(y)| == 4 && AllDigits(IntToDecimal(y)) && DecimalValue(IntToDecimal(y)) == y
  {
    assert IntToDecimal(y) == NatToDecimal(y);
    assert |NatToDecimal(y)| == |NatToDecimal(y / 10)| + 1;
    assert |NatToDecimal(y / 10)| == |NatToDecimal(y / 100)| + 1;
    assert |NatToDecimal(y / 100)| == |NatToDecimal(y / 1000)| + 1;
    DecimalRoundTrip(y);
  }

  lemma TwoDigitValue(s: string)
    requires |s| == 2 && AllDigits(s)
    ensures DecimalValue(s) == 10 * DigitValue(s[0]) + DigitValue(s[1])
  {
    assert DecimalValue(s) == 10 * DecimalValue(s[..1]) + DigitValue(s[1]);
    assert s[..1][..0] == [];
    assert DecimalValue(s[..1]) == 10 * DecimalValue([]) + DigitValue(s[0]);
  }

  /** A number below 100 pads to two digits. */
  lemma Pad2Shape(n: int)
    requires 0 <= n <= 99
    ensures |Pad2(n)| == 2 && AllDigits(Pad2(n))
  {
    if n >= 10 {
      assert |NatToDecimal(n)| == |NatToDecimal(n / 10)| + 1;
    }
  }

  /** A two-digit field reads back as the number it was padded from. */
  lemma Pad2Value(n: int)
    requires 0 <= n <= 99
    ensures |Pad2(n)| == 2 && AllDigits(Pad2(n)) && DecimalValue(Pad2(n)) == n
  {
    Pad2Shape(n);
    if n < 10 {
      var p := Pad2(n);
      assert p == [p[0], DigitChar(n)] by {
        assert p[1..] == [DigitChar(n)];
      }
      TwoDigitValue(p);
    } else {
      DecimalRoundTrip(n);
    }
  }

  /** The `YYYY-MM-DD` pattern: ten characters, dashes at 4 and 7, digits
      elsewhere. */
  predicate IsFolderShape(f: string) {
    |f| == 10 && f[4] == '-' && f[7] == '-'
    && AllDigits(f[..4]) && AllDigits(f[5..7]) && AllDigits(f[8..])
  }

  /** Reads a `YYYY-MM-DD` folder name back into a date. */
  function ParseDateFolder(f: string): Option<LocalDate> {
    if IsFolderShape(f)
    then Some(LocalDate(DecimalValue(f[..4]), DecimalValue(f[5..7]) - 1, DecimalValue(f[8..])))
    else None
  }

  /** Where the three parts of a `YYYY-MM-DD` name sit. */
  lemma JoinedLayout(y: string, m: string, d: string)
    requires |y| == 4 && |m| == 2 && |d| == 2
    ensures var f := y + "-" + m + "-" + d;
      |f| == 10 && f[4] == '-' && f[7] == '-' && f[..4] == y && f[5..7] == m && f[8..] == d
  {
    var f := y + "-" + m + "-" + d;
    assert f == y + (['-'] + m + ['-'] + d);
    assert f[5..7] == m by {
      assert forall i :: 5 <= i < 7 ==> f[i] == m[i - 5];
    }
    assert f[8..] == d by {
      assert forall i :: 8 <= i < 10 ==> f[i] == d[i - 8];
    }
  }

  /** Three digit strings of widths 4, 2 and 2 joined by `-` have the folder
      shape and parse back into their values. */
  lemma JoinedFolder(y: string, m: string, d: string)
    requires |y| == 4 && |m| == 2 && |d| == 2
    requires AllDigits(y) && AllDigits(m) && AllDigits(d)
    ensures IsFolderShape(y + "-" + m + "-" + d)
    ensures ParseDateFolder(y + "-" + m + "-" + d)
         == Some(LocalDate(DecimalValue(y), DecimalValue(m) - 1, DecimalValue(d)))
  {
    JoinedLayout(y, m, d);
    FolderOfParts(y + "-" + m + "-" + d, y, m, d);
  }

  lemma FolderOfParts(f: string, y: string, m: string, d: string)
    requires |f| == 10 && f[4] == '-' && f[7] == '-' && f[..4] == y && f[5..7] == m && f[8..] == d
    requires AllDigits(y) && AllDigits(m) && AllDigits(d)
    ensures IsFolderShape(f)
    ensures ParseDateFolder(f) == Some(LocalDate(DecimalValue(y), DecimalValue(m) - 1, DecimalValue(d)))
  {
  }

  /** For a calendar date in a four-digit year the folder name has the
      `YYYY-MM-DD` shape. */
  lemma DateFolderLayout(d: LocalDate)
    requires IsCalendarDate(d) && HasFourDigitYear(d)
    ensures IsFolderShape(DateFolder(d))
  {
    YearNumeral(d.year);
    Pad2Shape(d.month0 + 1);
    Pad2Shape(d.day);
    JoinedFolder(IntToDecimal(d.year), Pad2(d.month0 + 1), Pad2(d.day));
  }

  /** The folder name determines the date: parsing it gives the date back. */
  lemma DateFolderRoundTrip(d: LocalDate)
    requires IsCalendarDate(d) && HasFourDigitYear(d)
    ensures ParseDateFolder(DateFolder(d)) == Some(d)
  {
    YearNumeral(d.year);
    Pad2Value(d.month0 + 1);
    Pad2Value(d.day);
    PartsRoundTrip(d, IntToDecimal(d.year), Pad2(d.month0 + 1), Pad2(d.day));
  }

  lemma PartsRoundTrip(d: LocalDate, y: string, m: string, dd: string)
    requires |y| == 4 && AllDigits(y) && DecimalValue(y) == d.year
    requires |m| == 2 && AllDigits(m) && DecimalValue(m) == d.month0 + 1
    requires |dd| == 2 && AllDigits(dd) && DecimalValue(dd) == d.day
    ensures ParseDateFolder(y + "-" + m + "-" + dd) == Some(d)
  {
    JoinedFolder(y, m, dd);
  }

  /** Different days never share a folder. */
  lemma DateFolderInjective(d1: LocalDate, d2: LocalDate)
    requires IsCalendarDate(d1) && HasFourDigitYear(d1)
    requires IsCalendarDate(d2) && HasFourDigitYear(d2)
    requires DateFolder(d1) == DateFolder(d2)
    ensures d1 == d2
  {
    DateFolderRoundTrip(d1);
    DateFolderRoundTrip(d2);
  }

  /** `req.get('X-File-Name') || file.originalname`: the header unless it is
      missing or empty. */
  function ChosenName(header: Option<string>, originalName: string): string {
    if header.Some? && header.value != "" then header.value else originalName
  }

  /** `path.extname(name) || '.jpg'`. */
  function StoredExtension(name: string): (ext: string)
    ensures ext != [] && ext[0] == '.' && '/' !in ext
    ensures ext == Extname(name) || (Extname(name) == "" && ext == DefaultExtension)
  {
    if Extname(name) != "" then Extname(name) else DefaultExtension
  }

  /** The name multer stores the upload under:
      `<timestamp>-<basename(name, ext)><ext>`. */
  function StoredFileName(header: Option<string>, originalName: string, timestamp: nat): (r: string)
    ensures StartsWith(r, NatToDecimal(timestamp) + "-")
    ensures EndsWith(r, StoredExtension(ChosenName(header, originalName)))
  {
    var name := ChosenName(header, originalName);
    var ext := StoredExtension(name);
    var prefix := NatToDecimal(timestamp) + "-";
    var rest := Basename(name, ext) + ext;
    ConcatStartsWith(prefix, rest);
    ConcatEndsWith(Basename(name, ext), ext);
    ConcatEndsWith(prefix, rest);
    prefix + rest
  }

  /** A name with an extension is kept whole after the timestamp: only its
      directory part is dropped. */
  lemma StoredNameKeepsExtendedName(header: Option<string>, originalName: string, timestamp: nat)
    requires Extname(ChosenName(header, originalName)) != ""
    ensures StoredFileName(header, originalName, timestamp)
         == NatToDecimal(timestamp) + "-" + BaseSegment(ChosenName(header, originalName))
  {
    var name := ChosenName(header, originalName);
    BasenameStripsOwnExtension(name);
  }

  /** A name without an extension (and without a trailing `/`) gets `.jpg`
      appended; the bare name `.jpg` is emptied by `basename` first. */
  lemma StoredNameAppendsDefault(header: Option<string>, originalName: string, timestamp: nat)
    requires Extname(ChosenName(header, originalName)) == ""
    requires var name := ChosenName(header, originalName); name == [] || name[|name| - 1] != '/'
    ensures var name := ChosenName(header, originalName);
      StoredFileName(header, originalName, timestamp)
        == NatToDecimal(timestamp) + "-" + ((if name == DefaultExtension then "" else BaseSegment(name)) + DefaultExtension)
  {
    var name := ChosenName(header, originalName);
    assert StoredExtension(name) == DefaultExtension;
    if name != DefaultExtension {
      BasenameWithoutExtension(name);
    }
  }

  /** The stored name is a single path component whenever the client's name
      does not end with `/`, so it cannot leave the date folder. */
  lemma StoredNameHasNoSlash(header: Option<string>, originalName: string, timestamp: nat)
    requires var name := ChosenName(header, originalName); name == [] || name[|name| - 1] != '/'
    ensures '/' !in StoredFileName(header, originalName, timestamp)
  {
    var name := ChosenName(header, originalName);
    var prefix := NatToDecimal(timestamp) + "-";
    assert '/' !in prefix by {
      assert forall i :: 0 <= i < |prefix| - 1 ==> IsDigit(prefix[i]);
    }
    if Extname(name) != "" {
      StoredNameKeepsExtendedName(header, originalName, timestamp);
      assert StoredFileName(header, originalName, timestamp) == prefix + BaseSegment(name);
    } else {
      StoredNameAppendsDefault(header, originalName, timestamp);
      var mid := if name == DefaultExtension then "" else BaseSegment(name);
      assert StoredFileName(header, originalName, timestamp) == prefix + (mid + DefaultExtension);
    }
  }

  /** Node's `basename` keeps the trailing separator of a name such as
      `jpg/` (its last segment is a proper tail of `.jpg`), so the stored
      name then contains a `/`. The name arrives in the `X-File-Name`
      header, the only input here that can carry a `/`. */
  lemma TrailingSlashReachesStoredName()
    ensures StoredFileName(Some("jpg/"), "a.png", 7) == "7-jpg/.jpg"
  {
    assert StoredExtension(ChosenName(Some("jpg/"), "a.png")) == DefaultExtension
        && Basename(ChosenName(Some("jpg/"), "a.png"), DefaultExtension) == "jpg/" by {
      assert ChosenName(Some("jpg/"), "a.png") == "jpg/";
      TrailingSeparatorKept();
    }
    StoredNameFromParts(Some("jpg/"), "a.png", 7, DefaultExtension, "jpg/");
    assert NatToDecimal(7) == "7";
    SpelledOut();
  }

  lemma StoredNameFromParts(header: Option<string>, originalName: string, timestamp: nat, ext: string, base: string)
    requires StoredExtension(ChosenName(header, originalName)) == ext
    requires Basename(ChosenName(header, originalName), ext) == base
    ensures StoredFileName(header, originalName, timestamp) == NatToDecimal(timestamp) + "-" + (base + ext)
  {
  }

  lemma SpelledOut()
    ensures "7" + "-" + ("jpg/" + DefaultExtension) == "7-jpg/.jpg"
  {
  }

  /** The timestamp can be read back from the front of the stored name. */
  lemma TimestampOfStoredName(header: Option<string>, originalName: string, timestamp: nat)
    ensures var r := StoredFileName(header, originalName, timestamp);
      DecimalValue(LeadingDigits(r)) == timestamp
  {
    NumeralBeforeDash(StoredFileName(header, originalName, timestamp), timestamp);
  }

  /** Uploads received at different milliseconds never get the same name. */
  lemma DistinctTimestampsDistinctNames(h1: Option<string>, o1: string, t1: nat,
                                        h2: Option<string>, o2: string, t2: nat)
    requires t1 != t2
    ensures StoredFileName(h1, o1, t1) != StoredFileName(h2, o2, t2)
  {
    TimestampOfStoredName(h1, o1, t1);
    TimestampOfStoredName(h2, o2, t2);
  }
}

=== FILE: text.dfy ===
/** String helpers with the meaning JavaScript gives them: decimal rendering
    of integers (template-literal interpolation and `String(n)`),
    `padStart`, `startsWith` and `lastIndexOf` on single characters. */
module Text {
  import opened Wrappers

  predicate IsDigit(c: char) {
    '0' <= c <= '9'
  }

  predicate AllDigits(s: string) {
    forall i :: 0 <= i < |s| ==> IsDigit(s[i])
  }

  function DigitValue(c: char): (d: nat)
    requires IsDigit(c)
    ensures d < 10
  {
    c as int - '0' as int
  }

  function DigitChar(d: nat): (c: char)
    requires d < 10
    ensures IsDigit(c) && DigitValue(c) == d
  {
    ('0' as int + d) as char
  }

  /** The decimal numeral of `n`, without leading zeros. */
  function NatToDecimal(n: nat): (s: string)
    ensures |s| >= 1 && AllDigits(s)
    ensures s[0] == '0' ==> n == 0 && s == "0"
    decreases n
  {
    if n < 10 then [DigitChar(n)] else NatToDecimal(n / 10) + [DigitChar(n % 10)]
  }

  /** The value of a string of decimal digits, read most significant first. */
  function DecimalValue(s: string): nat
    requires AllDigits(s)
  {
    if s == [] then 0 else 10 * DecimalValue(s[..|s| - 1]) + DigitValue(s[|s| - 1])
  }

  /** Reading back a rendered numeral gives the number. */
  lemma {:induction false} DecimalRoundTrip(n: nat)
    ensures DecimalValue(NatToDecimal(n)) == n
  {
    if n >= 10 {
      var s := NatToDecimal(n);
      assert s[..|s| - 1] == NatToDecimal(n / 10);
      DecimalRoundTrip(n / 10);
    }
  }

  /** `${i}` for an integer: a minus sign for negative values. */
  function IntToDecimal(i: int): string {
    if i < 0 then "-" + NatToDecimal(-i) else NatToDecimal(i)
  }

  /** An integer's numeral is an optional minus sign, present exactly for
      negative values, followed by the digits of its magnitude. */
  lemma IntToDecimalMeaning(i: int)
    ensures var s := IntToDecimal(i);
      |s| >= 1 && (s[0] == '-' <==> i < 0)
    ensures var s := IntToDecimal(i);
      var digits := if i < 0 then s[1..] else s;
      AllDigits(digits) && DecimalValue(digits) == if i < 0 then -i else i
  {
    var n := if i < 0 then -i else i;
    DecimalRoundTrip(n);
    if i < 0 {
      assert IntToDecimal(i)[1..] == NatToDecimal(n);
    } else {
      assert IsDigit(NatToDecimal(n)[0]);
    }
  }

  /** `s.padStart(width, [fill])`: fill characters are added in front until
      the string is `width` long; a longer string is left as it is. */
  function PadStart(s: string, width: nat, fill: char): (r: string)
    ensures |r| == if |s| >= width then |s| else width
    ensures forall i :: 0 <= i < |s| ==> r[|r| - |s| + i] == s[i]
    ensures forall i :: 0 <= i < |r| - |s| ==> r[i] == fill
  {
    if |s| >= width then s else seq(width - |s|, _ => fill) + s
  }

  /** `s.startsWith(prefix)`: an exact, case-sensitive comparison. */
  predicate StartsWith(s: string, prefix: string) {
    |prefix| <= |s| && s[..|prefix|] == prefix
  }

  predicate EndsWith(s: string, suffix: string) {
    |suffix| <= |s| && s[|s| - |suffix|..] == suffix
  }

  lemma ConcatStartsWith(a: string, b: string)
    ensures StartsWith(a + b, a)
  {
    assert (a + b)[..|a|] == a;
  }

  lemma ConcatEndsWith(a: string, b: string)
    ensures EndsWith(a + b, b)
    ensures forall e :: EndsWith(b, e) ==> EndsWith(a + b, e)
  {
    assert (a + b)[|a|..] == b;
    forall e | EndsWith(b, e) ensures EndsWith(a + b, e) {
      assert (a + b)[|a + b| - |e|..] == b[|b| - |e|..];
    }
  }

  /** `s.lastIndexOf(c)`, with None standing for -1. */
  function LastIndexOf(s: string, c: char): (r: Option<nat>)
    ensures r.None? ==> c !in s
    ensures r.Some? ==> r.value < |s| && s[r.value] == c
    ensures r.Some? ==> forall j :: r.value < j < |s| ==> s[j] != c
  {
    if s == [] then None
    else if s[|s| - 1] == c then Some(|s| - 1)
    else
      var r := LastIndexOf(s[..|s| - 1], c);
      assert s == s[..|s| - 1] + [s[|s| - 1]];
      r
  }

  /** The longest prefix of `s` made of decimal digits. */
  function LeadingDigits(s: string): (r: string)
    ensures AllDigits(r) && r <= s
    ensures |r| < |s| ==> !IsDigit(s[|r|])
  {
    if s != [] && IsDigit(s[0]) then [s[0]] + LeadingDigits(s[1..]) else []
  }

  /** A string that starts with the numeral of `n` and a `-` gives `n`
      back from its leading digits. */
  lemma NumeralBeforeDash(s: string, n: nat)
    requires StartsWith(s, NatToDecimal(n) + "-")
    ensures DecimalValue(LeadingDigits(s)) == n
  {
    var digits := NatToDecimal(n);
    var rest := s[|digits|..];
    assert s == digits + rest by {
      assert s[..|digits|] == (digits + "-")[..|digits|];
    }
    assert rest[0] == (digits + "-")[|digits|];
    LeadingDigitsOfNumeral(digits, rest);
    DecimalRoundTrip(n);
  }

  /** A numeral followed by a non-digit is read back exactly. */
  lemma {:induction false} LeadingDigitsOfNumeral(digits: string, rest: string)
    requires AllDigits(digits)
    requires rest != [] && !IsDigit(rest[0])
    ensures LeadingDigits(digits + rest) == digits
  {
    if digits != [] {
      assert (digits + rest)[1..] == digits[1..] + rest;
      LeadingDigitsOfNumeral(digits[1..], rest);
    }
  }
}

=== FILE: upload.dfy ===
/** The `/upload` route (src/server.js:88-100, 131-163): multer's single-file
    handling of the `photo` field with the image-only filter and the 50 MiB
    cap, followed by the route's translation of multer's outcome into an
    HTTP status and JSON body. Streaming and the disk itself are abstract:
    the outcome of writing the file is an input. */
module Upload {
  import opened Wrappers
  import opened Text
  import opened StorageLayout

  const MaxFileSize: nat := 50 * 1024 * 1024
  const FieldName: string := "photo"
  const ImagePrefix: string := "image/"

  const FilterMessage: string := "Only image files are allowed"
  /** multer's messages for LIMIT_FILE_SIZE and LIMIT_UNEXPECTED_FILE. */
  const TooLargeMessage: string := "File too large"
  const UnexpectedFieldMessage: string := "Unexpected field"

  /** The route's two `error` strings. */
  const UploadFailed: string := "Upload failed"
  const NoFileReceived: string := "No file received"

  /** A file part of a multipart body, as busboy hands it to multer;
      `originalName` is the part's filename, empty when the part gave none. */
  datatype FilePart = FilePart(fieldName: string, originalName: string, mimetype: string, size: nat)

  /** What the route sees of a request: the `X-File-Name` header, the file
      part (if the body has one) and a parse error of the multipart body. */
  datatype UploadRequest = UploadRequest(
    fileNameHeader: Option<string>,
    part: Option<FilePart>,
    formError: Option<string>)

  /** `req.file` once multer has stored it; `path` is relative to the home
      directory, as the response reports it. */
  datatype StoredFile = StoredFile(filename: string, path: string, size: nat, mimetype: string)

  /** What multer hands to the route's callback: `err` or `req.file`. */
  datatype MulterOutcome = MulterOutcome(err: Option<string>, file: Option<StoredFile>)

  datatype Body =
    | ErrorBody(error: string, details: Option<string>)
    | SuccessBody(success: bool, file: string, path: string)

  datatype Response = Response(status: nat, body: Body)

  /** The `fileFilter`: a case-sensitive `startsWith('image/')`. */
  function FileFilter(mimetype: string): (err: Option<string>)
    ensures err.None? <==> StartsWith(mimetype, ImagePrefix)
    ensures err.Some? ==> err.value == FilterMessage
  {
    if StartsWith(mimetype, ImagePrefix) then None else Some(FilterMessage)
  }

  /** The rejection multer gives a file part, in the order it checks: the
      field name, the filter, then the size cap while streaming. */
  function Rejection(part: FilePart): (r: Option<string>)
    ensures r.None? <==> Admissible(part)
    ensures part.fieldName != FieldName ==> r == Some(UnexpectedFieldMessage)
    ensures part.fieldName == FieldName && !StartsWith(part.mimetype, ImagePrefix) ==> r == Some(FilterMessage)
    ensures part.fieldName == FieldName && StartsWith(part.mimetype, ImagePrefix) && part.size > MaxFileSize
            ==> r == Some(TooLargeMessage)
  {
    if part.fieldName != FieldName then Some(UnexpectedFieldMessage)
    else if FileFilter(part.mimetype).Some? then FileFilter(part.mimetype)
    else if part.size > MaxFileSize then Some(TooLargeMessage)
    else None
  }

  /** multer ignores a file part without a filename: it drains the stream
      before any other check, so the part is neither stored nor refused. */
  predicate Named(part: FilePart) {
    part.originalName != ""
  }

  /** The file part multer takes up, if any. */
  predicate HasNamedPart(req: UploadRequest) {
    req.part.Some? && Named(req.part.value)
  }

  /** Every condition a named part must meet to be stored. */
  predicate Admissible(part: FilePart) {
    part.fieldName == FieldName && StartsWith(part.mimetype, ImagePrefix) && part.size <= MaxFileSize
  }

  /** `upload.single('photo')` on one request received on `today` at
      millisecond `now`; `writeError` is the outcome of writing the admitted
      file to disk. A rejected or failed file is never reported as stored. */
  function RunMulter(req: UploadRequest, today: LocalDate, now: nat, writeError: Option<string>): (m: MulterOutcome)
    ensures m.err.Some? ==> m.file.None?
    ensures m.file.Some? <==> req.formError.None? && HasNamedPart(req) && Admissible(req.part.value) && writeError.None?
    ensures m.file.Some? ==> m.file.value.size == req.part.value.size && m.file.value.mimetype == req.part.value.mimetype
    ensures req.formError.Some? ==> m.err == req.formError
    ensures req.formError.None? && !HasNamedPart(req) ==> m == MulterOutcome(None, None)
    ensures req.formError.None? && HasNamedPart(req) && !Admissible(req.part.value)
            ==> m.err.Some? && m.err == Rejection(req.part.value)
    ensures req.formError.None? && HasNamedPart(req) && Admissible(req.part.value) ==> m.err == writeError
  {
    if req.formError.Some? then MulterOutcome(req.formError, None)
    else if !HasNamedPart(req) then MulterOutcome(None, None)
    else
      var part := req.part.value;
      if Rejection(part).Some? then MulterOutcome(Rejection(part), None)
      else if writeError.Some? then MulterOutcome(writeError, None)
      else
        var name := StoredFileName(req.fileNameHeader, part.originalName, now);
        MulterOutcome(None, Some(StoredFile(name, DateDirectory(today) + "/" + name, part.size, part.mimetype)))
  }

  /** The route's callback: an error gives 400 "Upload failed" with the
      error's message, no file gives 400 "No file received", otherwise 200
      with the stored name and its path. */
  function Respond(m: MulterOutcome): (r: Response)
    ensures r.status == 200 || r.status == 400
    ensures r.status == 200 <==> m.err.None? && m.file.Some?
    ensures r.status == 400 <==> r.body.ErrorBody?
    ensures m.err.Some? ==> r == Response(400, ErrorBody(UploadFailed, m.err))
    ensures m.err.None? && m.file.None? ==> r == Response(400, ErrorBody(NoFileReceived, None))
    ensures r.status == 200 ==> r.body == SuccessBody(true, m.file.value.filename, m.file.value.path)
  {
    if m.err.Some? then Response(400, ErrorBody(UploadFailed, Some(m.err.value)))
    else if m.file.None? then Response(400, ErrorBody(NoFileReceived, None))
    else Response(200, SuccessBody(true, m.file.value.filename, m.file.value.path))
  }

  /** One POST `/upload`: multer, then the route's callback. */
  function HandleUpload(req: UploadRequest, today: LocalDate, now: nat, writeError: Option<string>): Response {
    Respond(RunMulter(req, today, now, writeError))
  }

  /** An upload succeeds exactly when the body parses, has a named file part
      that is admissible, and the write succeeds; a success names the generated
      file and places it under `iPhone_Photo_Backup/<date>/`. */
  lemma UploadSucceedsExactlyWhenAdmitted(req: UploadRequest, today: LocalDate, now: nat, writeError: Option<string>)
    ensures var r := HandleUpload(req, today, now, writeError);
      r.status == 200 <==> req.formError.None? && HasNamedPart(req) && Admissible(req.part.value) && writeError.None?
    ensures var r := HandleUpload(req, today, now, writeError);
      r.status == 200 ==>
        var name := StoredFileName(req.fileNameHeader, req.part.value.originalName, now);
        r.body == SuccessBody(true, name, BackupRoot + "/" + DateFolder(today) + "/" + name)
  {
  }

  /** A named file part whose type does not start with `image/` is refused
      with the filter's message. */
  lemma NonImageRejected(req: UploadRequest, today: LocalDate, now: nat, writeError: Option<string>)
    requires req.formError.None? && HasNamedPart(req) && req.part.value.fieldName == FieldName
    requires !StartsWith(req.part.value.mimetype, ImagePrefix)
    ensures HandleUpload(req, today, now, writeError) == Response(400, ErrorBody(UploadFailed, Some(FilterMessage)))
  {
  }

  /** The filter is case-sensitive: `IMAGE/PNG` is not an image type. */
  lemma UpperCaseMimeRejected()
    ensures FileFilter("IMAGE/PNG") == Some(FilterMessage)
    ensures FileFilter("image/png") == None
  {
    assert "IMAGE/PNG"[..6] != ImagePrefix by { assert "IMAGE/PNG"[0] != ImagePrefix[0]; }
    assert "image/png"[..6] == ImagePrefix;
  }

  /** An image of exactly 50 MiB is stored; one byte more is refused as too
      large. */
  lemma SizeCapBoundary(header: Option<string>, name: string, mimetype: string, today: LocalDate, now: nat)
    requires name != "" && StartsWith(mimetype, ImagePrefix)
    ensures HandleUpload(UploadRequest(header, Some(FilePart(FieldName, name, mimetype, MaxFileSize)), None), today, now, None).status == 200
    ensures HandleUpload(UploadRequest(header, Some(FilePart(FieldName, name, mimetype, MaxFileSize + 1)), None), today, now, None)
         == Response(400, ErrorBody(UploadFailed, Some(TooLargeMessage)))
  {
  }

  /** A request without a file part, or whose file part has no filename,
      gets 400 "No file received", with no details, even when the part would
      otherwise be refused. */
  lemma MissingFileReported(req: UploadRequest, today: LocalDate, now: nat, writeError: Option<string>)
    requires req.formError.None? && !HasNamedPart(req)
    ensures HandleUpload(req, today, now, writeError) == Response(400, ErrorBody(NoFileReceived, None))
  {
  }

  /** A part with an `X-File-Name` header but no filename of its own is
      skipped by multer, so the header does not rescue it. */
  lemma UnnamedPartIgnored(today: LocalDate, now: nat)
    ensures HandleUpload(UploadRequest(Some("a.png"), Some(FilePart(FieldName, "", "image/png", 10)), None), today, now, None)
         == Response(400, ErrorBody(NoFileReceived, None))
  {
    MissingFileReported(UploadRequest(Some("a.png"), Some(FilePart(FieldName, "", "image/png", 10)), None), today, now, None);
  }

  /** Every failure multer reports reaches the client as 400 "Upload
      failed" with multer's message as details: a body that does not
      parse, a part in another field (multer's "Unexpected field"), a
      non-image type, a file over the cap, and a failed write. */
  lemma UploadErrorsReported(req: UploadRequest, today: LocalDate, now: nat, writeError: Option<string>)
    ensures req.formError.Some? ==>
      HandleUpload(req, today, now, writeError) == Response(400, ErrorBody(UploadFailed, req.formError))
    ensures req.formError.None? && HasNamedPart(req) && !Admissible(req.part.value) ==>
      HandleUpload(req, today, now, writeError) == Response(400, ErrorBody(UploadFailed, Rejection(req.part.value)))
    ensures req.formError.None? && HasNamedPart(req) && req.part.value.fieldName != FieldName ==>
      HandleUpload(req, today, now, writeError) == Response(400, ErrorBody(UploadFailed, Some(UnexpectedFieldMessage)))
    ensures req.formError.None? && HasNamedPart(req) && req.part.value.fieldName == FieldName
            && StartsWith(req.part.value.mimetype, ImagePrefix) && req.part.value.size > MaxFileSize ==>
      HandleUpload(req, today, now, writeError) == Response(400, ErrorBody(UploadFailed, Some(TooLargeMessage)))
    ensures req.formError.None? && HasNamedPart(req) && Admissible(req.part.value) && writeError.Some? ==>
      HandleUpload(req, today, now, writeError) == Response(400, ErrorBody(UploadFailed, writeError))
  {
  }

  /** A file name without a trailing `/` keeps the stored file directly in the
      date folder. */
  lemma StoredPathStaysInDateFolder(req: UploadRequest, today: LocalDate, now: nat)
    requires req.formError.None? && HasNamedPart(req) && Admissible(req.part.value)
    requires var name := ChosenName(req.fileNameHeader, req.part.value.originalName);
      name == [] || name[|name| - 1] != '/'
    ensures var r := HandleUpload(req, today, now, None);
      r.body.SuccessBody? && StartsWith(r.body.path, DateDirectory(today) + "/")
      && '/' !in r.body.path[|DateDirectory(today) + "/"|..]
  {
    var name := StoredFileName(req.fileNameHeader, req.part.value.originalName, now);
    var dir := DateDirectory(today) + "/";
    UploadSucceedsExactlyWhenAdmitted(req, today, now, None);
    StoredNameHasNoSlash(req.fileNameHeader, req.part.value.originalName, now);
    FileDirectlyInFolder(dir, name);
  }

  lemma FileDirectlyInFolder(dir: string, name: string)
    requires '/' !in name
    ensures StartsWith(dir + name, dir) && '/' !in (dir + name)[|dir|..]
  {
    ConcatStartsWith(dir, name);
    assert (dir + name)[|dir|..] == name;
  }
}

=== FILE: wrappers.dfy ===
/** The optional value used for "absent" throughout the model (a missing
    header, a missing file part, no error). */
module Wrappers {
  datatype Option<+T> = None | Some(value: T)
}
